=== FILE: README.md ===
# Request cache of the lm-evaluation-harness model layer, in Dafny

This project models the request cache of `lm_eval/api/model.py` and the encoding helpers of `TemplateLM`.

**The request cache.** `CachingLM` wraps a language model and intercepts three operations: `loglikelihood`, `loglikelihood_rolling` and `generate_until`. For a batch of requests it:

1. computes each request's key, `hash_args(attr, req.args)`;
2. serves the requests whose key is in the store (hits);
3. treats sampled `generate_until` requests as misses unconditionally;
4. calls the wrapped model once, on the misses in batch order;
5. merges the results back into the empty slots with a left-to-right cursor;
6. writes every merged result to the store and commits.

**The cache hook.** `CacheHook` is a write-only handle on the same store. The wrapped model uses it to record partial results while it runs. Built from `None`, it ignores every write.

**The encoding helpers.** `TemplateLM._encode_pair` moves the context's trailing whitespace onto the continuation. It then encodes the pair in one of two ways:
- a sequence-to-sequence model encodes the two halves on their own;
- any other model encodes the whole string and splits it at the length of the context's encoding.

`TemplateLM.loglikelihood` builds one `((context, continuation), context_enc, continuation_enc)` entry per request. An empty context becomes the prefix token, which defaults to the end-of-text token.

Layout:

- `wrappers.dfy`: `Option`, which stands for Python's value-or-`None`.
- `json.dfy`: the JSON values that request arguments are made of, Python truthiness and `dict.get`.
- `fingerprint.dfy`: the three operations, requests and `hash_args`.
- `slots.dfy`: the result slots. Holds the cursor merge as written (`MergeFrom`) and the intended "k-th result into the k-th empty slot" (`Fill`).
- `writes.dfy`: a run of store assignments applied in order.
- `batch.dfy`: what one batch call computes (slots, misses, response, store afterwards) and the theorems about it.
- `caching.dfy`: the classes `Store`, `CacheHook`, `LM` and `CachingLM`. Their methods are proved against the functions of `batch.dfy`.
- `template_lm.dfy`: the `TemplateLM` helpers.

Modelling choices:

- **Keys.** A key is the JSON value `[attr] + args`, which is what `hash_args` serialises and hashes. Integers and floats are distinct JSON values, as `json.dumps` writes `0` and `0.0` differently. `json.dumps` is injective on these values apart from the sign of a zero float (see Left out), and a SHA-256 collision is taken not to happen. So two keys are equal exactly when the operation names and argument lists are.
- **Stored `None`.** The store maps keys to `Option<V>`, because the Python dictionary can hold `None`. It gets one from a hook write or from a `None` backend result. The scan's `assert ob is not None` is therefore reachable, and it is modelled as an `AssertionError` outcome.
- **The wrapped model.** It is a function `respond` from (operation, requests) to its results and the hook calls it makes. `LM.Run` performs those hook calls through the model's `cacheHook`. A ghost log `calls` records each call with its operation and requests, so that a contract can say how often the wrapped model was invoked.
- **The merge.** It is modelled as written: `zip` stops at the shorter list, and the cursor stays on the slot it just wrote. `MergeIsFill` shows that this is the intended merge when every result is present.

Two behaviours of the code worth noting:

- **Sampled requests are stored.** The code writes the results of sampled `generate_until` requests to the store too (`lm_eval/api/model.py:741-749`).
- **A warm store still calls the backend.** A batch served entirely from the store still calls the wrapped model, with an empty list (`lm_eval/api/model.py:737`).

## Model

| member | source | states |
|---|---|---|
| `Fingerprint.HashArgsInjective` | lm_eval/api/model.py:660-662 | `hash_args` digests the JSON list of the operation name followed by the arguments in order. Two cache keys are equal exactly when their operation names and argument lists are equal. |
| `Fingerprint.RequestKeyDependsOnArgsOnly` | lm_eval/api/model.py:713 | A request's key depends only on the operation and `req.args`, never on the document, index or metadata. Different operations never share a key. |
| `Json.Get` | lm_eval/api/model.py:714 | `dict.get(name, default)`: with no field of that name the default is returned; otherwise the result is a value stored under that name. |
| `Batch.SampledMeaning` | lm_eval/api/model.py:714 | Only a `generate_until` request whose second argument is a dict can be sampled, and one that does not set `do_sample` is not sampled, since the default is `False`. That a truthy `do_sample` makes a request sampled holds by the definition of `Sampled` itself. |
| `Batch.Slots` | lm_eval/api/model.py:712-732 | `res` after the scan has one slot per request. |
| `Batch.Misses` | lm_eval/api/model.py:712-732 | `remaining_reqs` after the scan has at most one entry per request. |
| `Batch.MissCount` | lm_eval/api/model.py:712-732 | Each miss leaves exactly one empty slot and a corrupt hit one more, so the number of misses equals the number of empty slots when no hit holds `None` and is strictly smaller when one does. |
| `Batch.MissOrder` | lm_eval/api/model.py:712-732 | `remaining_reqs` keeps batch order: a missed request at position i is miss number "misses before i". |
| `Batch.ScanStep` | lm_eval/api/model.py:712-732 | Scanning one more request appends its slot, and adds it to the misses exactly when it is not a hit. The batch becomes corrupt exactly when that request is a corrupt hit, and sampled exactly when it is sampled. |
| `Batch.MissesAreNotHits` | lm_eval/api/model.py:724-732 | No request in `remaining_reqs` is one the store could serve. |
| `Batch.AllHitsNoMisses` | lm_eval/api/model.py:712-737 | A batch the store serves entirely sends the wrapped model an empty list. |
| `Batch.Response` | lm_eval/api/model.py:740-752 | The returned list has one slot per request, and a hit holding an object is returned as stored, whatever the backend replies. |
| `Batch.ResponseAligned` | lm_eval/api/model.py:724-752 | With no corrupt hit and one present result per miss, every slot is filled. Hit i gets its stored object. Miss i gets the backend's result for that same request: the k-th result goes to the k-th miss. |
| `Batch.SampledAlwaysMissed` | lm_eval/api/model.py:714-723 | A `generate_until` request with truthy `do_sample` gets an empty slot and is sent to the backend in its place among the misses, even when its key is stored. |
| `Batch.StoreAfter` | lm_eval/api/model.py:741-750 | After a call, a key is in the store exactly when it was there before, or the hook wrote it, or the merge wrote it for a miss. |
| `Batch.StoreAfterEffect` | lm_eval/api/model.py:741-750 | The store only grows. Each merged miss's key maps to its own result unless a later miss in the batch has the same key. Keys written neither by the hook nor by the merge keep their old value. |
| `Batch.ReplayedKey` | lm_eval/api/model.py:724-749 | After a call without hook writes, every request's key holds what the call returned for that request, sampled `generate_until` requests included. |
| `Batch.WarmStoreReplays` | lm_eval/api/model.py:704-752 | Take a batch without sampling whose first call succeeded, where the wrapped model wrote nothing through its hook and equal keys got equal results. Repeating it finds no corrupt hit and no miss, and returns the same list. |
| `ResultSlots.NextNone` | lm_eval/api/model.py:742-743 | The cursor stops at the first empty slot at or after its position. |
| `ResultSlots.SkipFilled` | lm_eval/api/model.py:742-743 | The inner cursor loop reaches the first empty slot at or after its start, skipping only filled slots. |
| `ResultSlots.PlaceNext` | lm_eval/api/model.py:742-745 | One pass of the merge loop moves the cursor to the next empty slot (`NextNone`) and writes the result there. Merging the remaining results from the new cursor gives the same list as merging all of them from the old one. |
| `ResultSlots.MergeFrom` | lm_eval/api/model.py:740-745 | The cursor merge as written keeps the list's length and never overwrites a filled slot. |
| `ResultSlots.Fill` | lm_eval/api/model.py:740-745 | The intended merge keeps the list's length and every filled slot. |
| `ResultSlots.FillAt` | lm_eval/api/model.py:740-745 | Under the intended merge, an empty slot receives the result whose index is the number of empty slots before it. It stays empty if there is no such result. |
| `ResultSlots.MergeIsFill` | lm_eval/api/model.py:740-745 | When every backend result is present, the cursor merge is exactly the intended one. |
| `ResultSlots.FillComplete` | lm_eval/api/model.py:740-745 | With one present result per empty slot, no slot is left empty. |
| `ResultSlots.NoneIsOverwritten` | lm_eval/api/model.py:741-745 | A `None` from the backend is written into the next empty slot, which stays empty, and the cursor stays on that slot. The remaining results then merge as if the `None` had not been returned. |
| `ResultSlots.NoneResultShiftsNextResult` | lm_eval/api/model.py:741-745 | For example, with two empty slots and results `[None, Some(x)]`, the merge returns `[Some(x), None]`: `x` lands one slot early and the last slot stays empty. |
| `Writes.ApplyWrites` | lm_eval/api/model.py:749 | After a run of assignments, a key is present exactly when it was present before or was assigned. |
| `Writes.LastWriteWins` | lm_eval/api/model.py:749 | The last assignment to a key decides its value. |
| `Writes.Untouched` | lm_eval/api/model.py:749 | A key no assignment targets keeps its presence and value. |
| `Writes.AgreeingWrites` | lm_eval/api/model.py:749 | A key that every assignment sets to the same value ends up holding that value. |
| `Caching.Store.constructor` | lm_eval/api/model.py:693 | Opening the store finds the entries already persisted at its path. |
| `Caching.Store.Set` | lm_eval/api/model.py:749 | `dbdict[k] = v` replaces the value of k and nothing else. |
| `Caching.Store.Commit` | lm_eval/api/model.py:750 | A commit leaves the entries as they are and is counted. |
| `Caching.CacheHook.constructor` | lm_eval/api/model.py:666-671 | The hook shares the caching wrapper's store, or has none when built from `None`. |
| `Caching.CacheHook.AddPartial` | lm_eval/api/model.py:673-677 | With a store, `add_partial` sets the key of (attr, args) to the result and changes nothing else. Without one, it changes nothing at all. |
| `Caching.LM.constructor` | lm_eval/api/model.py:22-31 | A model starts with a hook built from `None`. |
| `Caching.LM.SetCacheHook` | lm_eval/api/model.py:207-208 | Installs the given hook. |
| `Caching.LM.Run` | lm_eval/api/model.py:737 | The wrapped model returns its results, and the call is recorded in its call log. Its hook calls reach its hook's store in order, and nothing else changes. |
| `Caching.CachingLM.constructor` | lm_eval/api/model.py:681-696 | The wrapper opens its store on the persisted entries and installs a hook on that same store in the wrapped model, without calling the model (its call log is unchanged). |
| `Caching.CachingLM.GetCacheHook` | lm_eval/api/model.py:756-757 | A new hook on the wrapper's own store. |
| `Caching.CachingLM.Lookup` | lm_eval/api/model.py:704-735 | The scan raises `AssertionError` exactly when some hit holds `None`. Otherwise it yields the slots and the misses in batch order, and logs one warning if and only if the batch has a sampled request. |
| `Caching.CachingLM.Call` | lm_eval/api/model.py:698-754 | On a corrupt hit the call raises, does not call the wrapped model and changes nothing. Otherwise the wrapped model is called exactly once (one entry in its call log), on exactly the misses, and the call returns the cursor merge of its results. The store then holds the hook's writes followed by one write per merged miss, and is committed once. A separate hook store receives the hook's writes and is not committed. |
| `Caching.CachingLM.MergeResults` | lm_eval/api/model.py:739-749 | The merge loop returns the cursor merge of the pairs `zip` yields and writes each pair's result under its miss's key, in order. |
| `Caching.CachingLM.StoreMiss` | lm_eval/api/model.py:747-749 | The loop's store write adds the k-th miss's result under its key, as the next assignment of the run, without a commit. |
| `TemplateLMs.PrefixTokenId` | lm_eval/api/model.py:771-774 | The prefix token is the end-of-text token. |
| `TemplateLMs.TrailingSpaces` | lm_eval/api/model.py:785 | `len(s) - len(s.rstrip())` is the length of the whitespace run ending `s`: all of it is whitespace, and the character before it is not. |
| `TemplateLMs.MoveTrailingSpaces` | lm_eval/api/model.py:785-788 | Moving the trailing whitespace keeps `context + continuation`. The new context is a prefix that does not end in whitespace, only whitespace moves, and nothing changes when the context has none. |
| `TemplateLMs.MoveTrailingSpacesUnique` | lm_eval/api/model.py:785-788 | Only one split has these properties, and it is this one. |
| `TemplateLMs.MoveTrailingSpacesIdempotent` | lm_eval/api/model.py:785-788 | Moving the whitespace a second time changes nothing. |
| `TemplateLMs.EncodePair` | lm_eval/api/model.py:784-802 | The context's encoding is that of the stripped context. A sequence-to-sequence model encodes the continuation alone, without special tokens. Otherwise the continuation's tokens are the whole encoding minus the first `len(context_enc)` tokens (none if that exceeds the whole). |
| `TemplateLMs.EncodePairSplitsJointEncoding` | lm_eval/api/model.py:796-802 | On the decoder-only branch, when the context's encoding is a prefix of the joint one, the two halves concatenate to the encoding of `context + continuation`. |
| `TemplateLMs.EncodeRequest` | lm_eval/api/model.py:771-774 | An entry keeps the original strings. An empty context gets `[prefix_token_id]` (the end-of-text token) and the continuation encoded alone; any other context goes through `_encode_pair`. |
| `TemplateLMs.EncodeRequestTokens` | lm_eval/api/model.py:807-818 | With an empty context, an entry's tokens are the prefix token followed by the continuation's encoding. With a non-empty context on the decoder-only branch and a prefix-stable tokenizer, they are the encoding of the original `context + continuation`. |
| `TemplateLMs.Loglikelihood` | lm_eval/api/model.py:804-820 | One entry per request, in request order, each the encoding of that request's pair. |

## Left out

- `Caching.CachingLM.Call`: requires that every `generate_until` request's second argument is a dict. The code would raise `IndexError` or `AttributeError` on any other shape, and that path is not modelled.
- `TemplateLMs.Loglikelihood`: requires that every request's arguments are two strings. The code's tuple unpacking and tokenizer calls would fail otherwise.
- `TemplateLMs.Loglikelihood`: models `loglikelihood` up to the list it hands to `_loglikelihood_tokens`. That method is abstract, and scoring is a backend's job.
- `Caching.LM.Run`: the wrapped model is a function of the operation and the requests. Exceptions it raises are not modelled, and neither is the way it computes (scoring, sampling, retries). Different behaviour on different calls is expressed by passing a different `respond`. The wrapped model is taken not to mutate the requests it receives. One that changed `req.args[1]` (popping `"until"` from the generation arguments, say) would make the merge write under a key other than the one looked up.
- `Caching.Store.Commit`: SQLite persistence (`SqliteDict`, autocommit, creating the directory at `lm_eval/api/model.py:691-692`) is reduced to an in-memory map. The persisted entries are a constructor argument, and a commit counter stands for durability.
- `Fingerprint.HashArgsInjective`: a float is its real value, so `-0.0` and `0.0` are one value in the model, although `json.dumps` writes them differently and they hash to different keys. For these two arguments the lemma claims a collision the source does not have.
- `Fingerprint.HashArgs`: SHA-256 and `json.dumps` are replaced by the JSON value they digest. A `json.dumps` failure on a value it cannot serialise is not modelled, and neither are the non-finite floats it writes as `NaN`/`Infinity`.
- `Caching.CachingLM.Lookup`: the `assert` is modelled as enabled. Under `python -O` a stored `None` would be returned as an empty slot. That slot would take the result meant for the next miss after it, every later miss's result would move one slot left, and the last empty slot would stay `None`.
- Logging beyond the count of sampling warnings (the info lines, the warning text) and `tqdm` progress bars: side effects only.
- The `__getattr__` pass-through of other attributes, `create_from_arg_string`/`create_from_arg_obj`, `rank`, `world_size`, `tokenizer_name`, `chat_template`, `apply_chat_template`: configuration and reflection glue.
- `PrefixLM`, `SuffixLM` and `CipherLM` (`lm_eval/api/model.py:212-656`): delegating wrappers that read files and make one string edit.
- The rolling-window chunking described for `loglikelihood_rolling` (`lm_eval/api/model.py:59-97`): `loglikelihood_rolling` is abstract in this file, so there is no implementation to model.
- `TemplateLMs.PrefixTokenId`: a subclass overriding `prefix_token_id` is not modelled. The default, the end-of-text token, is used throughout.
- `TemplateLMs.EncodePair`: the `AUTO_MODEL_CLASS` lookup is reduced to a flag saying whether the model class is the sequence-to-sequence one. Keyword arguments of `tok_encode` other than `add_special_tokens` are not modelled.
- `lm_eval/api/instance.py` (the `Instance` request class) is not part of this model. `Fingerprint.Request` keeps the fields the cache sees: arguments, document, index and metadata.

=== FILE: batch.dfy ===
/**
 * What one call of `CachingLM`'s batch function computes, as functions of the
 * store before the call, the batch and the backend's reply.
 *
 * A request is a HIT when it is served from the store; every other request is
 * a MISS and goes to the backend. `Slots` is the list `res` after the scan,
 * `Misses` is `remaining_reqs`, `Response` is the list returned and
 * `StoreAfter` the store left behind.
 */
module Batch {
  import opened Wrappers
  import opened Json
  import opened Fingerprint
  import opened ResultSlots
  import opened Writes

  /** The persistent store: digest to stored object, which may be Python's `None`. */
  type Entries<V> = map<Key, Option<V>>

  function Min(a: nat, b: nat): nat {
    if a < b then a else b
  }

  /** The shape the scan relies on: a `generate_until` request's second argument is a dict. */
  predicate WellFormed(op: Op, req: Request) {
    op == GenerateUntil ==> |req.args| >= 2 && req.args[1].JObject?
  }

  /** A `generate_until` request asking for sampling (`do_sample` truthy, default `False`). */
  predicate Sampled(op: Op, req: Request) {
    && op == GenerateUntil
    && |req.args| >= 2
    && req.args[1].JObject?
    && Truthy(Get(req.args[1].fields, "do_sample", JBool(false)))
  }

  /**
   * Only a well-formed `generate_until` request can be sampled, and
   * `do_sample` defaults to `False`: a request that does not set it is not.
   */
  lemma SampledMeaning(op: Op, req: Request)
    ensures Sampled(op, req) ==> op == GenerateUntil && WellFormed(op, req)
    ensures (&& op == GenerateUntil && WellFormed(op, req)
             && forall i :: 0 <= i < |req.args[1].fields| ==> req.args[1].fields[i].0 != "do_sample")
            ==> !Sampled(op, req)
  {
  }

  predicate Hit<V>(op: Op, entries: Entries<V>, req: Request) {
    !Sampled(op, req) && RequestKey(op, req) in entries
  }

  /** A hit whose stored object is `None`: the scan's `assert ob is not None` fails on it. */
  predicate CorruptHit<V>(op: Op, entries: Entries<V>, req: Request) {
    Hit(op, entries, req) && entries[RequestKey(op, req)].None?
  }

  predicate Corrupt<V>(op: Op, entries: Entries<V>, reqs: seq<Request>) {
    exists i :: 0 <= i < |reqs| && CorruptHit(op, entries, reqs[i])
  }

  predicate AnySampled(op: Op, reqs: seq<Request>) {
    exists i :: 0 <= i < |reqs| && Sampled(op, reqs[i])
  }

  function Slot<V>(op: Op, entries: Entries<V>, req: Request): Option<V> {
    if Hit(op, entries, req) then entries[RequestKey(op, req)] else None
  }

  /** `res` after the scan: the stored object for a hit, `None` for a miss. */
  function Slots<V>(op: Op, entries: Entries<V>, reqs: seq<Request>): (slots: seq<Option<V>>)
    ensures |slots| == |reqs|
    decreases |reqs|
  {
    if reqs == [] then []
    else Slots(op, entries, reqs[..|reqs| - 1]) + [Slot(op, entries, reqs[|reqs| - 1])]
  }

  /** `remaining_reqs`: the misses, in batch order. */
  function Misses<V>(op: Op, entries: Entries<V>, reqs: seq<Request>): (misses: seq<Request>)
    ensures |misses| <= |reqs|
    decreases |reqs|
  {
    if reqs == [] then []
    else
      var last := reqs[|reqs| - 1];
      Misses(op, entries, reqs[..|reqs| - 1]) + (if Hit(op, entries, last) then [] else [last])
  }

  lemma {:induction false} SlotsAt<V>(op: Op, entries: Entries<V>, reqs: seq<Request>)
    ensures forall i :: 0 <= i < |reqs| ==> Slots(op, entries, reqs)[i] == Slot(op, entries, reqs[i])
    decreases |reqs|
  {
    if reqs != [] {
      var init := reqs[..|reqs| - 1];
      SlotsAt(op, entries, init);
      assert forall i :: 0 <= i < |init| ==> init[i] == reqs[i];
    }
  }

  lemma SlotsPrefix<V>(op: Op, entries: Entries<V>, reqs: seq<Request>, i: nat)
    requires i <= |reqs|
    ensures Slots(op, entries, reqs)[..i] == Slots(op, entries, reqs[..i])
  {
    SlotsAt(op, entries, reqs);
    SlotsAt(op, entries, reqs[..i]);
  }

  /** One more request scanned: how the slots and the misses grow. */
  lemma ScanStep<V>(op: Op, entries: Entries<V>, reqs: seq<Request>, i: nat)
    requires i < |reqs|
    ensures Slots(op, entries, reqs[..i + 1]) == Slots(op, entries, reqs[..i]) + [Slot(op, entries, reqs[i])]
    ensures Misses(op, entries, reqs[..i + 1]) ==
              Misses(op, entries, reqs[..i]) + (if Hit(op, entries, reqs[i]) then [] else [reqs[i]])
    ensures Corrupt(op, entries, reqs[..i + 1]) <==> Corrupt(op, entries, reqs[..i]) || CorruptHit(op, entries, reqs[i])
    ensures AnySampled(op, reqs[..i + 1]) <==> AnySampled(op, reqs[..i]) || Sampled(op, reqs[i])
  {
    assert reqs[..i + 1][..i] == reqs[..i] && reqs[..i + 1][i] == reqs[i];
    CorruptStep(op, entries, reqs, i);
    SampledStep(op, reqs, i);
  }

  /** One more request scanned: the batch is corrupt when the prefix was or the new request is a corrupt hit. */
  lemma CorruptStep<V>(op: Op, entries: Entries<V>, reqs: seq<Request>, i: nat)
    requires i < |reqs|
    ensures Corrupt(op, entries, reqs[..i + 1]) <==> Corrupt(op, entries, reqs[..i]) || CorruptHit(op, entries, reqs[i])
  {
    var pre, cur := reqs[..i], reqs[..i + 1];
    if Corrupt(op, entries, cur) && !CorruptHit(op, entries, reqs[i]) {
      var j :| 0 <= j < |cur| && CorruptHit(op, entries, cur[j]);
      assert pre[j] == cur[j];
    }
    if Corrupt(op, entries, pre) {
      var j :| 0 <= j < |pre| && CorruptHit(op, entries, pre[j]);
      assert cur[j] == pre[j];
    }
    if CorruptHit(op, entries, reqs[i]) {
      assert cur[i] == reqs[i];
    }
  }

  /** One more request scanned: the batch has a sampled request when the prefix had or the new request is one. */
  lemma SampledStep(op: Op, reqs: seq<Request>, i: nat)
    requires i < |reqs|
    ensures AnySampled(op, reqs[..i + 1]) <==> AnySampled(op, reqs[..i]) || Sampled(op, reqs[i])
  {
    var pre, cur := reqs[..i], reqs[..i + 1];
    if AnySampled(op, cur) && !Sampled(op, reqs[i]) {
      var j :| 0 <= j < |cur| && Sampled(op, cur[j]);
      assert pre[j] == cur[j];
    }
    if AnySampled(op, pre) {
      var j :| 0 <= j < |pre| && Sampled(op, pre[j]);
      assert cur[j] == pre[j];
    }
    if Sampled(op, reqs[i]) {
      assert cur[i] == reqs[i];
    }
  }

  /**
   * Every miss leaves exactly one empty slot; a corrupt hit leaves one more.
   * So the misses fill the empty slots exactly when the store is not corrupt.
   */
  lemma {:induction false} MissCount<V>(op: Op, entries: Entries<V>, reqs: seq<Request>)
    ensures |Misses(op, entries, reqs)| <= CountNone(Slots(op, entries, reqs))
    ensures !Corrupt(op, entries, reqs) ==> |Misses(op, entries, reqs)| == CountNone(Slots(op, entries, reqs))
    ensures Corrupt(op, entries, reqs) ==> |Misses(op, entries, reqs)| < CountNone(Slots(op, entries, reqs))
    decreases |reqs|
  {
    if reqs != [] {
      var init, last := reqs[..|reqs| - 1], reqs[|reqs| - 1];
      var slot := Slot(op, entries, last);
      MissCount(op, entries, init);
      CountNoneAppend(Slots(op, entries, init), [slot]);
      assert CountNone([slot]) == (if slot.None? then 1 else 0) by {
        assert [slot][1..] == [];
      }
      // The last request is a miss, a corrupt hit (one more empty slot) or a good hit.
      ScanStep(op, entries, reqs, |reqs| - 1);
      assert reqs[..|reqs|] == reqs;
    }
  }

  /** The number of misses before position `i`: the index of request `i` among the misses. */
  function MissRank<V>(op: Op, entries: Entries<V>, reqs: seq<Request>, i: nat): nat
    requires i <= |reqs|
  {
    |Misses(op, entries, reqs[..i])|
  }

  /** `remaining_reqs` keeps batch order: a missed request `i` is miss number `MissRank(i)`. */
  lemma {:induction false} MissOrder<V>(op: Op, entries: Entries<V>, reqs: seq<Request>, i: nat)
    requires i < |reqs| && !Hit(op, entries, reqs[i])
    ensures MissRank(op, entries, reqs, i) < |Misses(op, entries, reqs)|
    ensures Misses(op, entries, reqs)[MissRank(op, entries, reqs, i)] == reqs[i]
    decreases |reqs|
  {
    var init := reqs[..|reqs| - 1];
    if i == |reqs| - 1 {
      assert reqs[..i] == init;
    } else {
      assert reqs[..i] == init[..i];
      assert init[i] == reqs[i];
      MissOrder(op, entries, init, i);
    }
  }

  /** Every request in `remaining_reqs` is one the store could not serve. */
  lemma {:induction false} MissesAreNotHits<V>(op: Op, entries: Entries<V>, reqs: seq<Request>)
    ensures forall k :: 0 <= k < |Misses(op, entries, reqs)| ==> !Hit(op, entries, Misses(op, entries, reqs)[k])
    decreases |reqs|
  {
    if reqs != [] {
      MissesAreNotHits(op, entries, reqs[..|reqs| - 1]);
    }
  }

  /** A batch the store serves entirely sends nothing to the backend. */
  lemma {:induction false} AllHitsNoMisses<V>(op: Op, entries: Entries<V>, reqs: seq<Request>)
    requires forall i :: 0 <= i < |reqs| ==> Hit(op, entries, reqs[i])
    ensures Misses(op, entries, reqs) == []
    decreases |reqs|
  {
    if reqs != [] {
      var init := reqs[..|reqs| - 1];
      assert forall i :: 0 <= i < |init| ==> init[i] == reqs[i];
      AllHitsNoMisses(op, entries, init);
    }
  }

  /**
   * The list the call returns: the scan's slots with the backend's results
   * merged in by the cursor, over as many pairs as `zip` yields. Hits that
   * hold an object are returned as stored, whatever the backend replies.
   */
  function Response<V>(op: Op, entries: Entries<V>, reqs: seq<Request>, rs: seq<Option<V>>): (out: seq<Option<V>>)
    ensures |out| == |reqs|
    ensures forall i :: 0 <= i < |reqs| && Hit(op, entries, reqs[i]) && entries[RequestKey(op, reqs[i])].Some? ==>
              out[i] == entries[RequestKey(op, reqs[i])]
  {
    var slots := Slots(op, entries, reqs);
    var n := Min(|Misses(op, entries, reqs)|, |rs|);
    MissCount(op, entries, reqs);
    SlotsAt(op, entries, reqs);
    assert slots[0..] == slots;
    MergeFrom(slots, 0, rs[..n])
  }

  /** The assignments `dbdict[hash_args(attr, req.args)] = r` of the merge loop, for the pairs `zip` yields. */
  function MissWrites<V>(op: Op, misses: seq<Request>, rs: seq<Option<V>>): (ws: seq<(Key, Option<V>)>)
    ensures |ws| == Min(|misses|, |rs|)
  {
    seq(Min(|misses|, |rs|), k requires 0 <= k < Min(|misses|, |rs|) => (RequestKey(op, misses[k]), rs[k]))
  }

  /** The merge loop's store write for the `k`-th miss, as one more assignment of the run. */
  lemma MissWriteStep<V>(op: Op, m: Entries<V>, misses: seq<Request>, rs: seq<Option<V>>, k: nat)
    requires k < Min(|misses|, |rs|)
    ensures ApplyWrites(m, MissWrites(op, misses, rs)[..k + 1]) ==
              ApplyWrites(m, MissWrites(op, misses, rs)[..k])[RequestKey(op, misses[k]) := rs[k]]
  {
    ApplyWritesStep(m, MissWrites(op, misses, rs), k);
  }

  /**
   * The store after a call: first the backend's own writes through the cache
   * hook (`hookWrites`), then one write per merged miss.
   */
  function StoreAfter<V>(op: Op, entries: Entries<V>, reqs: seq<Request>,
                         hookWrites: seq<(Key, Option<V>)>, rs: seq<Option<V>>): (after: Entries<V>)
    ensures forall k :: k in after <==>
              k in entries || Written(hookWrites, k) || Written(MissWrites(op, Misses(op, entries, reqs), rs), k)
  {
    ApplyWrites(ApplyWrites(entries, hookWrites), MissWrites(op, Misses(op, entries, reqs), rs))
  }

  /**
   * Order preservation. When the store is not corrupt and the backend returns
   * one present result per miss, the call returns one present result per
   * request: a hit gets its stored object, and a miss gets the backend's result
   * for that very request (the k-th result for the k-th miss).
   */
  lemma ResponseAligned<V>(op: Op, entries: Entries<V>, reqs: seq<Request>, rs: seq<Option<V>>)
    requires !Corrupt(op, entries, reqs)
    requires |rs| == |Misses(op, entries, reqs)|
    requires forall k :: 0 <= k < |rs| ==> rs[k].Some?
    ensures |Response(op, entries, reqs, rs)| == |reqs|
    ensures forall i :: 0 <= i < |reqs| ==> Response(op, entries, reqs, rs)[i].Some?
    ensures forall i :: 0 <= i < |reqs| && Hit(op, entries, reqs[i]) ==>
              Response(op, entries, reqs, rs)[i] == entries[RequestKey(op, reqs[i])]
    ensures forall i :: 0 <= i < |reqs| && !Hit(op, entries, reqs[i]) ==>
              && MissRank(op, entries, reqs, i) < |rs|
              && Misses(op, entries, reqs)[MissRank(op, entries, reqs, i)] == reqs[i]
              && Response(op, entries, reqs, rs)[i] == rs[MissRank(op, entries, reqs, i)]
  {
    var slots := Slots(op, entries, reqs);
    MissCount(op, entries, reqs);
    SlotsAt(op, entries, reqs);
    assert rs[..|rs|] == rs;
    assert slots[0..] == slots;
    MergeIsFill(slots, 0, rs);
    FillComplete(slots, rs);
    forall i | 0 <= i < |reqs| && !Hit(op, entries, reqs[i])
      ensures MissRank(op, entries, reqs, i) < |rs|
      ensures Misses(op, entries, reqs)[MissRank(op, entries, reqs, i)] == reqs[i]
      ensures Fill(slots, rs)[i] == rs[MissRank(op, entries, reqs, i)]
    {
      MissFilled(op, entries, reqs, rs, i);
    }
  }

  /** The `i`-th request, a miss, receives the result of its rank among the misses. */
  lemma MissFilled<V>(op: Op, entries: Entries<V>, reqs: seq<Request>, rs: seq<Option<V>>, i: nat)
    requires i < |reqs| && !Hit(op, entries, reqs[i])
    requires !Corrupt(op, entries, reqs)
    requires |rs| == |Misses(op, entries, reqs)|
    ensures MissRank(op, entries, reqs, i) < |rs|
    ensures Misses(op, entries, reqs)[MissRank(op, entries, reqs, i)] == reqs[i]
    ensures Fill(Slots(op, entries, reqs), rs)[i] == rs[MissRank(op, entries, reqs, i)]
  {
    var slots := Slots(op, entries, reqs);
    SlotsAt(op, entries, reqs);
    MissOrder(op, entries, reqs, i);
    SlotsPrefix(op, entries, reqs, i);
    assert !Corrupt(op, entries, reqs[..i]) by {
      assert forall j :: 0 <= j < i ==> reqs[..i][j] == reqs[j];
    }
    MissCount(op, entries, reqs[..i]);
    FillAt(slots, rs, i);
  }

  /**
   * A sampled `generate_until` request is never served from the store, even
   * when its key is there: it leaves its slot empty and goes to the backend at
   * its place among the misses.
   */
  lemma SampledAlwaysMissed<V>(op: Op, entries: Entries<V>, reqs: seq<Request>, i: nat)
    requires i < |reqs| && Sampled(op, reqs[i])
    ensures Slots(op, entries, reqs)[i] == None
    ensures MissRank(op, entries, reqs, i) < |Misses(op, entries, reqs)|
    ensures Misses(op, entries, reqs)[MissRank(op, entries, reqs, i)] == reqs[i]
  {
    SlotsAt(op, entries, reqs);
    MissOrder(op, entries, reqs, i);
  }

  /**
   * The store after a call only grows; each merged miss's key maps to its own
   * backend result unless a later miss in the batch has the same key (then the
   * later one's result is kept); and a key written neither by the backend's
   * hook nor by the merge keeps its old value.
   */
  lemma StoreAfterEffect<V>(op: Op, entries: Entries<V>, reqs: seq<Request>,
                            hookWrites: seq<(Key, Option<V>)>, rs: seq<Option<V>>)
    ensures entries.Keys <= StoreAfter(op, entries, reqs, hookWrites, rs).Keys
    ensures forall k :: 0 <= k < Min(|Misses(op, entries, reqs)|, |rs|) &&
                        (forall k' :: k < k' < Min(|Misses(op, entries, reqs)|, |rs|) ==>
                           RequestKey(op, Misses(op, entries, reqs)[k']) != RequestKey(op, Misses(op, entries, reqs)[k])) ==>
              && RequestKey(op, Misses(op, entries, reqs)[k]) in StoreAfter(op, entries, reqs, hookWrites, rs)
              && StoreAfter(op, entries, reqs, hookWrites, rs)[RequestKey(op, Misses(op, entries, reqs)[k])] == rs[k]
    ensures forall key :: !Written(hookWrites, key) && !Written(MissWrites(op, Misses(op, entries, reqs), rs), key) ==>
              (key in StoreAfter(op, entries, reqs, hookWrites, rs) <==> key in entries) &&
              (key in entries ==> StoreAfter(op, entries, reqs, hookWrites, rs)[key] == entries[key])
  {
    var misses := Misses(op, entries, reqs);
    var mid := ApplyWrites(entries, hookWrites);
    var ws := MissWrites(op, misses, rs);
    forall k | 0 <= k < |ws| && (forall k' :: k < k' < |ws| ==> RequestKey(op, misses[k']) != RequestKey(op, misses[k]))
      ensures RequestKey(op, misses[k]) in ApplyWrites(mid, ws)
      ensures ApplyWrites(mid, ws)[RequestKey(op, misses[k])] == rs[k]
    {
      LastWriteWins(mid, ws, k);
    }
    forall key | !Written(hookWrites, key) && !Written(ws, key)
      ensures (key in ApplyWrites(mid, ws) <==> key in entries)
      ensures key in entries ==> ApplyWrites(mid, ws)[key] == entries[key]
    {
      Untouched(entries, hookWrites, key);
      Untouched(mid, ws, key);
    }
  }

  /** After a call without hook writes, request `i`'s key holds what the call returned for it. */
  lemma ReplayedKey<V>(op: Op, entries: Entries<V>, reqs: seq<Request>, rs: seq<Option<V>>, i: nat)
    requires i < |reqs|
    requires !Corrupt(op, entries, reqs)
    requires |rs| == |Misses(op, entries, reqs)|
    requires forall k :: 0 <= k < |rs| ==> rs[k].Some?
    requires forall a, b :: 0 <= a < |rs| && 0 <= b < |rs| &&
               RequestKey(op, Misses(op, entries, reqs)[a]) == RequestKey(op, Misses(op, entries, reqs)[b])
               ==> rs[a] == rs[b]
    ensures RequestKey(op, reqs[i]) in StoreAfter(op, entries, reqs, [], rs)
    ensures StoreAfter(op, entries, reqs, [], rs)[RequestKey(op, reqs[i])] == Response(op, entries, reqs, rs)[i]
  {
    var misses := Misses(op, entries, reqs);
    var ws := MissWrites(op, misses, rs);
    var key := RequestKey(op, reqs[i]);
    assert ApplyWrites(entries, []) == entries;
    ResponseAligned(op, entries, reqs, rs);
    if Hit(op, entries, reqs[i]) {
      MissesAreNotHits(op, entries, reqs);
      assert !Written(ws, key) by {
        forall k | 0 <= k < |ws| ensures ws[k].0 != key {
          assert ws[k].0 == RequestKey(op, misses[k]) && !Hit(op, entries, misses[k]);
          RequestKeyDependsOnArgsOnly(op, misses[k], op, reqs[i]);
        }
      }
      Untouched(entries, ws, key);
    } else {
      var r := MissRank(op, entries, reqs, i);
      assert ws[r].0 == key;
      AgreeingWrites(entries, ws, key, rs[r]);
    }
  }

  /**
   * A second call with the same batch finds every request in the store. This
   * holds when the batch has no sampled request, the first call succeeded
   * with one present result per miss, the backend wrote nothing through its
   * hook, and repeats of one key got equal results. The second call then
   * sends the backend an empty list and returns what the first call returned.
   */
  lemma WarmStoreReplays<V>(op: Op, entries: Entries<V>, reqs: seq<Request>, rs: seq<Option<V>>, rs2: seq<Option<V>>)
    requires forall i :: 0 <= i < |reqs| ==> !Sampled(op, reqs[i])
    requires !Corrupt(op, entries, reqs)
    requires |rs| == |Misses(op, entries, reqs)|
    requires forall k :: 0 <= k < |rs| ==> rs[k].Some?
    requires forall a, b :: 0 <= a < |rs| && 0 <= b < |rs| &&
               RequestKey(op, Misses(op, entries, reqs)[a]) == RequestKey(op, Misses(op, entries, reqs)[b])
               ==> rs[a] == rs[b]
    ensures !Corrupt(op, StoreAfter(op, entries, reqs, [], rs), reqs)
    ensures Misses(op, StoreAfter(op, entries, reqs, [], rs), reqs) == []
    ensures Response(op, StoreAfter(op, entries, reqs, [], rs), reqs, rs2) == Response(op, entries, reqs, rs)
  {
    var after := StoreAfter(op, entries, reqs, [], rs);
    var out := Response(op, entries, reqs, rs);
    ResponseAligned(op, entries, reqs, rs);
    forall i | 0 <= i < |reqs|
      ensures RequestKey(op, reqs[i]) in after && after[RequestKey(op, reqs[i])] == out[i]
    {
      ReplayedKey(op, entries, reqs, rs, i);
    }
    assert forall i :: 0 <= i < |reqs| ==> Hit(op, after, reqs[i]);
    AllHitsNoMisses(op, after, reqs);
    ResponseAligned(op, after, reqs, []);
    assert Response(op, after, reqs, rs2) == Response(op, after, reqs, []) by {
      assert rs2[..0] == [][..0];
    }
  }
}

=== FILE: caching.dfy ===
/**
 * The caching wrapper around a language model: the store it shares with the
 * wrapped model's cache hook, the hook itself, the wrapped model as far as
 * the wrapper sees it, and the batch function that serves hits from the store,
 * sends misses to the model and writes their results back.
 */
module Caching {
  import opened Wrappers
  import opened Json
  import opened Fingerprint
  import opened ResultSlots
  import opened Writes
  import opened Batch

  /** One `cache_hook.add_partial(attr, req, res)` call the wrapped model makes while it runs. */
  datatype Partial<V> = Partial(attr: string, args: seq<Json>, result: Option<V>)

  /** What the wrapped model does with a list of requests: its results, and its hook calls in order. */
  datatype Reply<V> = Reply(results: seq<Option<V>>, partials: seq<Partial<V>>)

  /** The store assignments that a run of hook calls amounts to. */
  function PartialWrites<V>(ps: seq<Partial<V>>): (ws: seq<(Key, Option<V>)>)
    ensures |ws| == |ps|
  {
    seq(|ps|, j requires 0 <= j < |ps| => (HashArgs(ps[j].attr, ps[j].args), ps[j].result))
  }

  /** The outcome of the scan over a batch: the slots, the misses and the number of warnings logged. */
  datatype Scan<V> =
    | Scanned(res: seq<Option<V>>, remaining: seq<Request>, warnings: nat)
    | ScanAssertionError

  /** The outcome of one batch call: the returned list, or the `AssertionError` raised by the scan. */
  datatype Outcome<V> = Returned(results: seq<Option<V>>) | AssertionError

  /** The persistent dictionary of cached results; `commits` counts calls of `commit()`. */
  class Store<V> {
    var entries: Entries<V>
    var commits: nat

    /** Opening the store at a path finds what earlier processes left there (`persisted`). */
    constructor (persisted: Entries<V>)
      ensures entries == persisted && commits == 0
    {
      entries := persisted;
      commits := 0;
    }

    method Set(key: Key, value: Option<V>)
      modifies this
      ensures entries == old(entries)[key := value] && commits == old(commits)
    {
      entries := entries[key := value];
    }

    method Commit()
      modifies this
      ensures entries == old(entries) && commits == old(commits) + 1
    {
      commits := commits + 1;
    }
  }

  /** A write-only handle on a caching wrapper's store; built from `null`, it ignores every write. */
  class CacheHook<V> {
    const dbdict: Store?<V>

    constructor (cachingLM: CachingLM?<V>)
      ensures dbdict == if cachingLM == null then null else cachingLM.dbdict
    {
      dbdict := if cachingLM == null then null else cachingLM.dbdict;
    }

    method AddPartial(attr: string, req: seq<Json>, res: Option<V>)
      modifies dbdict
      ensures dbdict != null ==>
                dbdict.entries == old(dbdict.entries)[HashArgs(attr, req) := res] &&
                dbdict.commits == old(dbdict.commits)
    {
      if dbdict == null {
        return;
      }
      var hsh := HashArgs(attr, req);
      dbdict.Set(hsh, res);
    }
  }

  /** The wrapped model, as the wrapper sees it: a cache hook and the three operations. */
  class LM<V> {
    var cacheHook: CacheHook<V>
    /** Every call of an operation so far, with the requests it was given. */
    ghost var calls: seq<(Op, seq<Request>)>

    constructor ()
      ensures fresh(cacheHook) && cacheHook.dbdict == null
      ensures calls == []
    {
      cacheHook := new CacheHook(null);
      calls := [];
    }

    method SetCacheHook(hook: CacheHook<V>)
      modifies this
      ensures cacheHook == hook && calls == old(calls)
    {
      cacheHook := hook;
    }

    /**
     * Runs operation `op` on `requests`. What the model computes is given by
     * `respond`; the hook calls it makes along the way go through `cacheHook`.
     */
    method Run(op: Op, requests: seq<Request>, respond: (Op, seq<Request>) -> Reply<V>)
      returns (results: seq<Option<V>>)
      modifies this`calls, cacheHook.dbdict
      ensures calls == old(calls) + [(op, requests)]
      ensures results == respond(op, requests).results
      ensures cacheHook.dbdict != null ==>
                cacheHook.dbdict.entries ==
                  ApplyWrites(old(cacheHook.dbdict.entries), PartialWrites(respond(op, requests).partials)) &&
                cacheHook.dbdict.commits == old(cacheHook.dbdict.commits)
    {
      calls := calls + [(op, requests)];
      var reply := respond(op, requests);
      var ws := PartialWrites(reply.partials);
      var j := 0;
      while j < |reply.partials|
        invariant 0 <= j <= |reply.partials|
        invariant calls == old(calls) + [(op, requests)]
        invariant cacheHook.dbdict != null ==>
                    cacheHook.dbdict.entries == ApplyWrites(old(cacheHook.dbdict.entries), ws[..j]) &&
                    cacheHook.dbdict.commits == old(cacheHook.dbdict.commits)
      {
        var p := reply.partials[j];
        cacheHook.AddPartial(p.attr, p.args, p.result);
        assert ws[..j + 1][..j] == ws[..j];
        j := j + 1;
      }
      assert ws[..j] == ws;
      results := reply.results;
    }
  }

  class CachingLM<V> {
    const lm: LM<V>
    const cacheDb: string
    const dbdict: Store<V>

    /** Opens the store at `cacheDb` and installs a hook on it in the wrapped model. */
    constructor (lm: LM<V>, cacheDb: string, persisted: Entries<V>)
      modifies lm
      ensures this.lm == lm && this.cacheDb == cacheDb
      ensures fresh(dbdict) && dbdict.entries == persisted && dbdict.commits == 0
      ensures fresh(lm.cacheHook) && lm.cacheHook.dbdict == dbdict
      ensures lm.calls == old(lm.calls)
    {
      this.lm := lm;
      this.cacheDb := cacheDb;
      dbdict := new Store(persisted);
      new;
      var hook := GetCacheHook();
      lm.SetCacheHook(hook);
    }

    method GetCacheHook() returns (hook: CacheHook<V>)
      ensures fresh(hook) && hook.dbdict == dbdict
    {
      hook := new CacheHook(this);
    }

    /**
     * The scan of the batch function: in batch order, a sampled
     * `generate_until` request is a miss (with one warning per batch), a
     * stored key is a hit whose object must not be `None`, anything else is a
     * miss.
     */
    method Lookup(op: Op, requests: seq<Request>) returns (scan: Scan<V>)
      requires forall i :: 0 <= i < |requests| ==> WellFormed(op, requests[i])
      ensures Corrupt(op, dbdict.entries, requests) <==> scan == ScanAssertionError
      ensures !Corrupt(op, dbdict.entries, requests) ==>
                scan == Scanned(Slots(op, dbdict.entries, requests), Misses(op, dbdict.entries, requests),
                                if AnySampled(op, requests) then 1 else 0)
    {
      var res: seq<Option<V>> := [];
      var remaining: seq<Request> := [];
      var warned := false;
      var warnings := 0;
      var i := 0;
      while i < |requests|
        invariant 0 <= i <= |requests|
        invariant !Corrupt(op, dbdict.entries, requests[..i])
        invariant res == Slots(op, dbdict.entries, requests[..i])
        invariant remaining == Misses(op, dbdict.entries, requests[..i])
        invariant warned == AnySampled(op, requests[..i])
        invariant warnings == if warned then 1 else 0
      {
        var req := requests[i];
        var hsh := HashArgs(OpName(op), req.args);
        ScanStep(op, dbdict.entries, requests, i);
        if op == GenerateUntil && Truthy(Get(req.args[1].fields, "do_sample", JBool(false))) {
          if !warned {
            warnings := warnings + 1;
            warned := true;
          }
          res := res + [None];
          remaining := remaining + [req];
        } else if hsh in dbdict.entries {
          var ob := dbdict.entries[hsh];
          if ob.None? {
            assert CorruptHit(op, dbdict.entries, requests[i]);
            return ScanAssertionError;
          }
          res := res + [ob];
        } else {
          res := res + [None];
          remaining := remaining + [req];
        }
        i := i + 1;
      }
      assert requests[..i] == requests;
      scan := Scanned(res, remaining, warnings);
    }

    /**
     * The batch function for operation `op`: scan, one call of the wrapped
     * model on the misses, the cursor merge of its results, one store write
     * per merged miss, and a commit.
     */
    method Call(op: Op, requests: seq<Request>, respond: (Op, seq<Request>) -> Reply<V>)
      returns (out: Outcome<V>)
      requires forall i :: 0 <= i < |requests| ==> WellFormed(op, requests[i])
      modifies dbdict, lm`calls, lm.cacheHook.dbdict
      ensures Corrupt(op, old(dbdict.entries), requests) ==>
                && out == AssertionError
                && lm.calls == old(lm.calls)
                && dbdict.entries == old(dbdict.entries) && dbdict.commits == old(dbdict.commits)
                && (lm.cacheHook.dbdict != null ==>
                      lm.cacheHook.dbdict.entries == old(lm.cacheHook.dbdict.entries)
                      && lm.cacheHook.dbdict.commits == old(lm.cacheHook.dbdict.commits))
      ensures !Corrupt(op, old(dbdict.entries), requests) ==>
                var reply := respond(op, Misses(op, old(dbdict.entries), requests));
                && out == Returned(Response(op, old(dbdict.entries), requests, reply.results))
                && lm.calls == old(lm.calls) + [(op, Misses(op, old(dbdict.entries), requests))]
                && dbdict.entries == StoreAfter(op, old(dbdict.entries), requests,
                                                if lm.cacheHook.dbdict == dbdict then PartialWrites(reply.partials) else [],
                                                reply.results)
                && dbdict.commits == old(dbdict.commits) + 1
                && (lm.cacheHook.dbdict != null && lm.cacheHook.dbdict != dbdict ==>
                      lm.cacheHook.dbdict.entries ==
                        ApplyWrites(old(lm.cacheHook.dbdict.entries), PartialWrites(reply.partials))
                      && lm.cacheHook.dbdict.commits == old(lm.cacheHook.dbdict.commits))
    {
      var scan := Lookup(op, requests);
      if scan.ScanAssertionError? {
        out := AssertionError;
        return;
      }
      var res, remaining := scan.res, scan.remaining;
      ghost var entries0 := dbdict.entries;
      var remRes := lm.Run(op, remaining, respond);
      MissCount(op, entries0, requests);
      assert res[0..] == res;
      res := MergeResults(op, res, remaining, remRes);
      dbdict.Commit();
      out := Returned(res);
    }

    /**
     * The merge loop of the batch function: for each pair that
     * `zip(remaining, remRes)` yields, the cursor moves to the next empty slot
     * and the result goes there and into the store under the miss's key.
     */
    method MergeResults(op: Op, res: seq<Option<V>>, remaining: seq<Request>, remRes: seq<Option<V>>)
      returns (merged: seq<Option<V>>)
      requires CountNone(res[0..]) >= Min(|remaining|, |remRes|)
      modifies dbdict
      ensures merged == MergeFrom(res, 0, remRes[..Min(|remaining|, |remRes|)])
      ensures dbdict.entries == ApplyWrites(old(dbdict.entries), MissWrites(op, remaining, remRes))
      ensures dbdict.commits == old(dbdict.commits)
    {
      ghost var ws := MissWrites(op, remaining, remRes);
      ghost var entries0 := dbdict.entries;
      var n := Min(|remaining|, |remRes|);
      merged := res;
      assert remRes[0..n] == remRes[..n];
      var resptr: nat, k := 0, 0;
      while k < n
        invariant 0 <= k <= n && resptr <= |merged| && |merged| == |res|
        invariant CountNone(merged[resptr..]) >= n - k
        invariant MergeFrom(merged, resptr, remRes[k..n]) == MergeFrom(res, 0, remRes[..n])
        invariant dbdict.entries == ApplyWrites(entries0, ws[..k])
        invariant dbdict.commits == old(dbdict.commits)
      {
        assert remRes[k..n][0] == remRes[k] && remRes[k..n][1..] == remRes[k + 1..n];
        merged, resptr := PlaceNext(merged, resptr, remRes[k..n]);
        StoreMiss(op, remaining, remRes, k, entries0);
        k := k + 1;
      }
      assert ws[..k] == ws && remRes[k..n] == [];
    }

    /** The store write of the merge loop: the `k`-th result under the `k`-th miss's key. */
    method StoreMiss(op: Op, remaining: seq<Request>, remRes: seq<Option<V>>, k: nat, ghost entries0: Entries<V>)
      requires k < Min(|remaining|, |remRes|)
      requires dbdict.entries == ApplyWrites(entries0, MissWrites(op, remaining, remRes)[..k])
      modifies dbdict
      ensures dbdict.entries == ApplyWrites(entries0, MissWrites(op, remaining, remRes)[..k + 1])
      ensures dbdict.commits == old(dbdict.commits)
    {
      var hsh := HashArgs(OpName(op), remaining[k].args);
      MissWriteStep(op, entries0, remaining, remRes, k);
      dbdict.Set(hsh, remRes[k]);
    }
  }
}

=== FILE: fingerprint.dfy ===
/**
 * Requests and their cache keys (`hash_args`).
 *
 * `hash_args(attr, args)` is the SHA-256 digest of `json.dumps([attr] + list(args))`.
 * The digest is modelled by the JSON value it is computed from: `json.dumps` is
 * injective on these values and a SHA-256 collision is taken not to happen, so
 * two keys are equal exactly when their serialised inputs are.
 */
module Fingerprint {
  import opened Json

  /** The three operations the cache intercepts. */
  datatype Op = Loglikelihood | LoglikelihoodRolling | GenerateUntil

  function OpName(op: Op): string {
    match op
    case Loglikelihood => "loglikelihood"
    case LoglikelihoodRolling => "loglikelihood_rolling"
    case GenerateUntil => "generate_until"
  }

  /** An evaluation request: its arguments, the document it came from, its index and metadata. */
  datatype Request = Request(args: seq<Json>, doc: Json, idx: int, metadata: seq<Json>)

  type Key = Json

  /** `hash_args`: the key of a call of operation `attr` on `args`. */
  function HashArgs(attr: string, args: seq<Json>): Key {
    JArray([JString(attr)] + args)
  }

  /** The key under which `fn` looks up and stores a request of operation `op`. */
  function RequestKey(op: Op, req: Request): Key {
    HashArgs(OpName(op), req.args)
  }

  /** Equal keys come exactly from equal operation names and equal argument lists. */
  lemma HashArgsInjective(attr1: string, args1: seq<Json>, attr2: string, args2: seq<Json>)
    ensures HashArgs(attr1, args1) == HashArgs(attr2, args2) <==> attr1 == attr2 && args1 == args2
  {
    if HashArgs(attr1, args1) == HashArgs(attr2, args2) {
      var s1, s2 := [JString(attr1)] + args1, [JString(attr2)] + args2;
      assert s1 == s2;
      assert s1[0] == JString(attr1) && s2[0] == JString(attr2);
      assert s1[1..] == args1 && s2[1..] == args2;
    }
  }

  /**
   * The key of a request depends on its operation and its arguments only: the
   * document, the index and the metadata play no part, and different
   * operations never share a key.
   */
  lemma RequestKeyDependsOnArgsOnly(op1: Op, r1: Request, op2: Op, r2: Request)
    ensures RequestKey(op1, r1) == RequestKey(op2, r2) <==> op1 == op2 && r1.args == r2.args
  {
    HashArgsInjective(OpName(op1), r1.args, OpName(op2), r2.args);
  }
}

=== FILE: json.dfy ===
/**
 * The JSON values that request arguments are made of, as `json.dumps` sees
 * them: a dict keeps its insertion order, so it is a sequence of fields.
 * An `int` and a `float` are different values (`json.dumps` writes `0` and
 * `0.0`); a finite float is its real value.
 */
module Json {

  datatype Json =
    | JNull
    | JBool(b: bool)
    | JInt(i: int)
    | JFloat(r: real)
    | JString(s: string)
    | JArray(items: seq<Json>)
    | JObject(fields: seq<(string, Json)>)

  /** Python truthiness of a value. */
  predicate Truthy(j: Json) {
    match j
    case JNull => false
    case JBool(b) => b
    case JInt(i) => i != 0
    case JFloat(r) => r != 0.0
    case JString(s) => s != ""
    case JArray(xs) => xs != []
    case JObject(fs) => fs != []
  }

  /** `dict.get(name, default)`: the value of the first field called `name`, else `default`. */
  function Get(fields: seq<(string, Json)>, name: string, default: Json): (r: Json)
    ensures (forall i :: 0 <= i < |fields| ==> fields[i].0 != name) ==> r == default
    ensures (exists i :: 0 <= i < |fields| && fields[i].0 == name) ==> (name, r) in fields
  {
    if fields == [] then default
    else if fields[0].0 == name then fields[0].1
    else
      assert forall i :: 1 <= i < |fields| ==> fields[i] == fields[1..][i - 1];
      Get(fields[1..], name, default)
  }
}

=== FILE: slots.dfy ===
/**
 * Result slots: the list `res` that `fn` fills, where `None` marks a request
 * still waiting for the backend, and the two ways of filling it.
 *
 * `MergeFrom` is the source's merge as written (the `resptr` cursor over
 * `zip(remaining_reqs, rem_res)`); `Fill` is the intended meaning, "the k-th
 * result goes into the k-th empty slot". `MergeIsFill` connects them.
 */
module ResultSlots {
  import opened Wrappers

  /** Number of empty slots. */
  function CountNone<V>(s: seq<Option<V>>): (n: nat)
    ensures n <= |s|
  {
    if s == [] then 0 else (if s[0].None? then 1 else 0) + CountNone(s[1..])
  }

  lemma {:induction false} CountNoneAppend<V>(a: seq<Option<V>>, b: seq<Option<V>>)
    ensures CountNone(a + b) == CountNone(a) + CountNone(b)
  {
    if a == [] {
      assert a + b == b;
    } else {
      assert (a + b)[1..] == a[1..] + b;
      CountNoneAppend(a[1..], b);
    }
  }

  lemma CountNoneSplit<V>(s: seq<Option<V>>, i: nat)
    requires i <= |s|
    ensures CountNone(s) == CountNone(s[..i]) + CountNone(s[i..])
  {
    assert s == s[..i] + s[i..];
    CountNoneAppend(s[..i], s[i..]);
  }

  lemma CountNoneFrom<V>(s: seq<Option<V>>, p: nat)
    requires p <= |s|
    ensures p == |s| ==> CountNone(s[p..]) == 0
    ensures p < |s| ==> CountNone(s[p..]) == (if s[p].None? then 1 else 0) + CountNone(s[p + 1..])
  {
    if p < |s| {
      assert s[p..][1..] == s[p + 1..];
    }
  }

  /** Writing `x` into the empty slot `q` removes one empty slot unless `x` is itself empty. */
  lemma CountNoneSet<V>(s: seq<Option<V>>, q: nat, x: Option<V>)
    requires q < |s| && s[q].None?
    ensures CountNone(s[q := x][q..]) == CountNone(s[q..]) - (if x.Some? then 1 else 0)
  {
    CountNoneFrom(s, q);
    CountNoneFrom(s[q := x], q);
    assert s[q := x][q + 1..] == s[q + 1..];
  }

  /** Skipping filled slots does not change the number of empty slots ahead. */
  lemma {:induction false} CountNoneSkip<V>(s: seq<Option<V>>, p: nat, q: nat)
    requires p <= q <= |s|
    requires forall j :: p <= j < q ==> s[j].Some?
    ensures CountNone(s[p..]) == CountNone(s[q..])
    decreases q - p
  {
    if p < q {
      CountNoneFrom(s, p);
      CountNoneSkip(s, p + 1, q);
    }
  }

  /** The first empty slot at or after `p` (the inner `while res[resptr] is not None` loop). */
  function NextNone<V>(s: seq<Option<V>>, p: nat): (q: nat)
    requires p <= |s| && CountNone(s[p..]) > 0
    ensures p <= q < |s| && s[q].None?
    ensures forall j :: p <= j < q ==> s[j].Some?
    decreases |s| - p
  {
    CountNoneFrom(s, p);
    if s[p].None? then p else NextNone(s, p + 1)
  }

  /** The inner cursor loop `while res[resptr] is not None: resptr += 1`. */
  method SkipFilled<V>(res: seq<Option<V>>, p: nat) returns (q: nat)
    requires p <= |res| && CountNone(res[p..]) > 0
    ensures p <= q < |res| && res[q].None?
    ensures forall j :: p <= j < q ==> res[j].Some?
    ensures q == NextNone(res, p)
  {
    q := p;
    CountNoneFrom(res, q);
    while res[q].Some?
      invariant p <= q < |res|
      invariant CountNone(res[q..]) > 0
      invariant forall j :: p <= j < q ==> res[j].Some?
      invariant NextNone(res, q) == NextNone(res, p)
      decreases |res| - q
    {
      CountNoneFrom(res, q);
      q := q + 1;
      CountNoneFrom(res, q);
    }
  }

  /**
   * The source's merge: for each backend result in turn, advance the cursor to
   * the next empty slot and store the result there. The cursor stays on the
   * slot it wrote, so a `None` result leaves that slot empty for the next one.
   */
  function MergeFrom<V>(s: seq<Option<V>>, p: nat, rs: seq<Option<V>>): (out: seq<Option<V>>)
    requires p <= |s| && CountNone(s[p..]) >= |rs|
    ensures |out| == |s|
    ensures forall j :: 0 <= j < |s| && s[j].Some? ==> out[j] == s[j]
    decreases |rs|
  {
    if rs == [] then s
    else
      var q := NextNone(s, p);
      CountNoneSkip(s, p, q);
      CountNoneSet(s, q, rs[0]);
      MergeFrom(s[q := rs[0]], q, rs[1..])
  }

  /** One cursor step: the first result goes into the next empty slot, and the cursor stays there. */
  lemma MergeFromStep<V>(s: seq<Option<V>>, p: nat, rs: seq<Option<V>>)
    requires p <= |s| && CountNone(s[p..]) >= |rs| > 0
    ensures CountNone(s[NextNone(s, p) := rs[0]][NextNone(s, p)..]) >= |rs| - 1
    ensures MergeFrom(s, p, rs) == MergeFrom(s[NextNone(s, p) := rs[0]], NextNone(s, p), rs[1..])
  {
    var q := NextNone(s, p);
    CountNoneSkip(s, p, q);
    CountNoneSet(s, q, rs[0]);
  }

  /** One pass of the merge loop: skip to the next empty slot and write the first result there. */
  method PlaceNext<V>(res: seq<Option<V>>, p: nat, rs: seq<Option<V>>) returns (placed: seq<Option<V>>, q: nat)
    requires p <= |res| && CountNone(res[p..]) >= |rs| > 0
    ensures q == NextNone(res, p) && placed == res[q := rs[0]]
    ensures |placed| == |res| && q <= |placed|
    ensures CountNone(placed[q..]) >= |rs| - 1
    ensures MergeFrom(placed, q, rs[1..]) == MergeFrom(res, p, rs)
  {
    MergeFromStep(res, p, rs);
    q := SkipFilled(res, p);
    placed := res[q := rs[0]];
  }

  /** The intended merge: the k-th result goes into the k-th empty slot, counting from the left. */
  function Fill<V>(s: seq<Option<V>>, rs: seq<Option<V>>): (out: seq<Option<V>>)
    ensures |out| == |s|
    ensures forall j :: 0 <= j < |s| && s[j].Some? ==> out[j] == s[j]
  {
    if s == [] then []
    else if s[0].None? && rs != [] then [rs[0]] + Fill(s[1..], rs[1..])
    else [s[0]] + Fill(s[1..], rs)
  }

  /** Slot `i`, if empty, receives the result whose index is the number of empty slots before it. */
  lemma {:induction false} FillAt<V>(s: seq<Option<V>>, rs: seq<Option<V>>, i: nat)
    requires i < |s| && s[i].None?
    ensures CountNone(s[..i]) < |rs| ==> Fill(s, rs)[i] == rs[CountNone(s[..i])]
    ensures CountNone(s[..i]) >= |rs| ==> Fill(s, rs)[i] == None
  {
    if i == 0 {
      assert s[..0] == [];
    } else {
      assert s[..i] == [s[0]] + s[1..][..i - 1];
      CountNoneAppend([s[0]], s[1..][..i - 1]);
      assert CountNone([s[0]]) == (if s[0].None? then 1 else 0) by {
        assert [s[0]][1..] == [];
      }
      if s[0].None? && rs != [] {
        FillAt(s[1..], rs[1..], i - 1);
      } else {
        FillAt(s[1..], rs, i - 1);
      }
    }
  }

  lemma {:induction false} FillNothing<V>(s: seq<Option<V>>)
    ensures Fill(s, []) == s
  {
    if s != [] {
      FillNothing(s[1..]);
    }
  }

  /** One step of the cursor agrees with `Fill`: filling the first hole with the first result. */
  lemma {:induction false} FillStep<V>(s: seq<Option<V>>, rs: seq<Option<V>>, q: nat)
    requires q < |s| && s[q].None?
    requires forall j :: 0 <= j < q ==> s[j].Some?
    requires rs != [] && rs[0].Some?
    ensures Fill(s, rs) == Fill(s[q := rs[0]], rs[1..])
  {
    if q == 0 {
      assert s[q := rs[0]][1..] == s[1..];
    } else {
      assert s[q := rs[0]][1..] == s[1..][q - 1 := rs[0]];
      FillStep(s[1..], rs, q - 1);
    }
  }

  /**
   * When every backend result is present, the source's cursor merge is the
   * intended one: the k-th result lands in the k-th empty slot.
   */
  lemma {:induction false} MergeIsFill<V>(s: seq<Option<V>>, p: nat, rs: seq<Option<V>>)
    requires p <= |s| && CountNone(s[p..]) >= |rs|
    requires forall j :: 0 <= j < p ==> s[j].Some?
    requires forall k :: 0 <= k < |rs| ==> rs[k].Some?
    ensures MergeFrom(s, p, rs) == Fill(s, rs)
    decreases |rs|
  {
    if rs == [] {
      FillNothing(s);
    } else {
      var q := NextNone(s, p);
      CountNoneSkip(s, p, q);
      CountNoneSet(s, q, rs[0]);
      FillStep(s, rs, q);
      MergeIsFill(s[q := rs[0]], q, rs[1..]);
    }
  }

  /** With one present result per empty slot, no slot is left empty. */
  lemma FillComplete<V>(s: seq<Option<V>>, rs: seq<Option<V>>)
    requires |rs| == CountNone(s)
    requires forall k :: 0 <= k < |rs| ==> rs[k].Some?
    ensures forall j :: 0 <= j < |s| ==> Fill(s, rs)[j].Some?
  {
    forall j | 0 <= j < |s| && s[j].None?
      ensures Fill(s, rs)[j].Some?
    {
      CountNoneSplit(s, j);
      CountNoneFrom(s, j);
      FillAt(s, rs, j);
    }
  }

  /**
   * A `None` result is written into the next empty slot, which stays empty,
   * and the cursor stays there: the rest of the results merge as if that
   * `None` had not been returned.
   */
  lemma NoneIsOverwritten<V>(s: seq<Option<V>>, p: nat, rs: seq<Option<V>>)
    requires p <= |s| && CountNone(s[p..]) >= |rs| + 1
    ensures CountNone(s[NextNone(s, p)..]) == CountNone(s[p..])
    ensures MergeFrom(s, p, [None] + rs) == MergeFrom(s, NextNone(s, p), rs)
  {
    var q := NextNone(s, p);
    CountNoneSkip(s, p, q);
    CountNoneSet(s, q, None);
    assert s[q := None] == s;
    assert ([None] + rs)[1..] == rs;
  }

  /**
   * What the cursor does with a `None` from the backend: the next result is
   * written over it, so that result lands one slot early and the last slot
   * stays empty.
   */
  lemma NoneResultShiftsNextResult<V>(x: V)
    ensures MergeFrom([None, None], 0, [None, Some(x)]) == [Some(x), None]
  {
    var s: seq<Option<V>> := [None, None];
    assert NextNone(s, 0) == 0;
    var s1 := s[0 := None];
    assert s1 == s;
    CountNoneFrom(s, 0);
    CountNoneFrom(s, 1);
    CountNoneFrom(s, 2);
    assert [None, Some(x)][1..] == [Some(x)];
    assert MergeFrom(s, 0, [None, Some(x)]) == MergeFrom(s, 0, [Some(x)]);
    assert s[0 := Some(x)] == [Some(x), None];
  }
}

=== FILE: template_lm.dfy ===
/**
 * The encoding helpers of `TemplateLM`: moving the context's trailing
 * whitespace onto the continuation, encoding a (context, continuation) pair,
 * and building the per-request inputs of `loglikelihood`.
 *
 * The tokenizer is a parameter: `tokEncode(s, true)` stands for `tok_encode(s)`
 * with its default keyword arguments, and `tokEncode(s, false)` for
 * `tok_encode(s, add_special_tokens=False)`.
 */
module TemplateLMs {
  import opened Json
  import opened Fingerprint

  /**
   * What the helpers use of a model: its end-of-text token, its tokenizer,
   * and whether its model class is the sequence-to-sequence one.
   */
  datatype TemplateLM = TemplateLM(eotTokenId: int, tokEncode: (string, bool) -> seq<int>, isSeq2Seq: bool)

  /** The token put in front of an empty context: by default the end-of-text token. */
  function PrefixTokenId(lm: TemplateLM): (t: int)
    ensures t == lm.eotTokenId
  {
    lm.eotTokenId
  }

  /** Python's `str.isspace` for one character. */
  predicate IsSpace(c: char) {
    var n := c as int;
    || 9 <= n <= 13
    || 28 <= n <= 32
    || n == 0x85 || n == 0xA0 || n == 0x1680
    || 0x2000 <= n <= 0x200A
    || n == 0x2028 || n == 0x2029 || n == 0x202F || n == 0x205F || n == 0x3000
  }

  /** `len(s) - len(s.rstrip())`: the length of the whitespace run that ends `s`. */
  function TrailingSpaces(s: string): (n: nat)
    ensures n <= |s|
    ensures forall i :: |s| - n <= i < |s| ==> IsSpace(s[i])
    ensures n < |s| ==> !IsSpace(s[|s| - n - 1])
    decreases |s|
  {
    if s != [] && IsSpace(s[|s| - 1]) then
      var n := TrailingSpaces(s[..|s| - 1]);
      assert forall i :: 0 <= i < |s| - 1 ==> s[..|s| - 1][i] == s[i];
      n + 1
    else 0
  }

  /**
   * The first step of `_encode_pair`: the trailing whitespace of the context,
   * if any, moves to the front of the continuation. Nothing is lost or
   * reordered, the new context ends in a non-space (or is empty), and only
   * whitespace moved.
   */
  function MoveTrailingSpaces(context: string, continuation: string): (r: (string, string))
    ensures r.0 + r.1 == context + continuation
    ensures r.0 <= context
    ensures r.0 == [] || !IsSpace(r.0[|r.0| - 1])
    ensures forall i :: |r.0| <= i < |context| ==> IsSpace(context[i])
    ensures (context == [] || !IsSpace(context[|context| - 1])) ==> r == (context, continuation)
  {
    var n := TrailingSpaces(context);
    if n > 0 then
      var k := |context| - n;
      assert context[..k] + (context[k..] + continuation) == context + continuation by {
        assert context[..k] + context[k..] == context;
      }
      (context[..k], context[k..] + continuation)
    else (context, continuation)
  }

  /**
   * The move is the only split of `context + continuation` with these
   * properties: any prefix of the context that leaves only whitespace behind
   * and does not itself end in whitespace is the one `MoveTrailingSpaces` keeps.
   */
  lemma MoveTrailingSpacesUnique(context: string, continuation: string, c: string, k: string)
    requires c <= context && c + k == context + continuation
    requires c == [] || !IsSpace(c[|c| - 1])
    requires forall i :: |c| <= i < |context| ==> IsSpace(context[i])
    ensures MoveTrailingSpaces(context, continuation) == (c, k)
  {
    var r := MoveTrailingSpaces(context, continuation);
    assert forall i :: 0 <= i < |c| ==> c[i] == context[i];
    assert forall i :: 0 <= i < |r.0| ==> r.0[i] == context[i];
    assert |r.0| == |c|;
    assert r.0 == c;
    assert (c + k)[|c|..] == k && (r.0 + r.1)[|c|..] == r.1;
  }

  /** Moving the whitespace a second time changes nothing. */
  lemma MoveTrailingSpacesIdempotent(context: string, continuation: string)
    ensures var r := MoveTrailingSpaces(context, continuation);
            MoveTrailingSpaces(r.0, r.1) == r
  {
  }

  /**
   * `_encode_pair`. A sequence-to-sequence model encodes both halves on their
   * own, the continuation without special tokens. Any other model encodes the
   * whole string once and keeps what follows the length of the context's own
   * encoding (nothing, when that length exceeds the whole).
   */
  function EncodePair(lm: TemplateLM, context: string, continuation: string): (r: (seq<int>, seq<int>))
    ensures r.0 == lm.tokEncode(MoveTrailingSpaces(context, continuation).0, true)
    ensures lm.isSeq2Seq ==> r.1 == lm.tokEncode(MoveTrailingSpaces(context, continuation).1, false)
    ensures !lm.isSeq2Seq ==>
              var whole := lm.tokEncode(context + continuation, true);
              && |r.1| == (if |r.0| <= |whole| then |whole| - |r.0| else 0)
              && r.1 == whole[|whole| - |r.1|..]
  {
    var (c, k) := MoveTrailingSpaces(context, continuation);
    if lm.isSeq2Seq then
      (lm.tokEncode(c, true), lm.tokEncode(k, false))
    else
      var wholeEnc := lm.tokEncode(c + k, true);
      var contextEnc := lm.tokEncode(c, true);
      var n := |contextEnc|;
      (contextEnc, if n <= |wholeEnc| then wholeEnc[n..] else [])
  }

  /**
   * On the decoder-only branch, when the context's encoding is a prefix of
   * the whole string's encoding, the two halves put together are exactly the
   * encoding of `context + continuation`: the continuation's tokens are those
   * of the joint tokenization.
   */
  lemma EncodePairSplitsJointEncoding(lm: TemplateLM, context: string, continuation: string)
    requires !lm.isSeq2Seq
    requires lm.tokEncode(MoveTrailingSpaces(context, continuation).0, true) <= lm.tokEncode(context + continuation, true)
    ensures EncodePair(lm, context, continuation).0 + EncodePair(lm, context, continuation).1 ==
            lm.tokEncode(context + continuation, true)
  {
    var (c, k) := MoveTrailingSpaces(context, continuation);
    var whole := lm.tokEncode(context + continuation, true);
    var ctx := lm.tokEncode(c, true);
    assert c + k == context + continuation;
    assert ctx + whole[|ctx|..] == whole;
  }

  /** One entry of the list handed to `_loglikelihood_tokens`. */
  datatype Encoded = Encoded(pair: (string, string), contextEnc: seq<int>, continuationEnc: seq<int>)

  /**
   * The entry for one (context, continuation) pair: an empty context becomes
   * the prefix token alone with the continuation encoded by itself; any other
   * context goes through `EncodePair`. The entry keeps the original strings.
   */
  function EncodeRequest(lm: TemplateLM, context: string, continuation: string): (e: Encoded)
    ensures e.pair == (context, continuation)
    ensures context == "" ==> e.contextEnc == [PrefixTokenId(lm)] && e.continuationEnc == lm.tokEncode(continuation, true)
    ensures context != "" ==> (e.contextEnc, e.continuationEnc) == EncodePair(lm, context, continuation)
  {
    if context == "" then
      Encoded((context, continuation), [PrefixTokenId(lm)], lm.tokEncode(continuation, true))
    else
      var (contextEnc, continuationEnc) := EncodePair(lm, context, continuation);
      Encoded((context, continuation), contextEnc, continuationEnc)
  }

  /**
   * For a non-empty context on the decoder-only branch with a prefix-stable
   * tokenizer, the entry's two token lists together are the encoding of the
   * original `context + continuation`; for an empty one, the prefix token
   * followed by the continuation's own encoding.
   */
  lemma EncodeRequestTokens(lm: TemplateLM, context: string, continuation: string)
    requires context != "" ==> !lm.isSeq2Seq
    requires context != "" ==>
               lm.tokEncode(MoveTrailingSpaces(context, continuation).0, true) <= lm.tokEncode(context + continuation, true)
    ensures var e := EncodeRequest(lm, context, continuation);
            e.contextEnc + e.continuationEnc ==
              if context == "" then [lm.eotTokenId] + lm.tokEncode(continuation, true)
              else lm.tokEncode(context + continuation, true)
  {
    if context != "" {
      EncodePairSplitsJointEncoding(lm, context, continuation);
    }
  }

  /**
   * `TemplateLM.loglikelihood` up to the call of `_loglikelihood_tokens`:
   * one entry per request, in request order. Each request's arguments are a
   * (context, continuation) pair of strings.
   */
  method Loglikelihood(lm: TemplateLM, requests: seq<Request>) returns (newReqs: seq<Encoded>)
    requires forall i :: 0 <= i < |requests| ==>
               |requests[i].args| == 2 && requests[i].args[0].JString? && requests[i].args[1].JString?
    ensures |newReqs| == |requests|
    ensures forall i :: 0 <= i < |requests| ==>
              newReqs[i] == EncodeRequest(lm, requests[i].args[0].s, requests[i].args[1].s)
  {
    newReqs := [];
    var i := 0;
    while i < |requests|
      invariant 0 <= i <= |requests|
      invariant |newReqs| == i
      invariant forall j :: 0 <= j < i ==>
                  newReqs[j] == EncodeRequest(lm, requests[j].args[0].s, requests[j].args[1].s)
    {
      var context, continuation := requests[i].args[0].s, requests[i].args[1].s;
      var contextEnc, continuationEnc;
      if context == "" {
        contextEnc, continuationEnc := [PrefixTokenId(lm)], lm.tokEncode(continuation, true);
      } else {
        var pair := EncodePair(lm, context, continuation);
        contextEnc, continuationEnc := pair.0, pair.1;
      }
      newReqs := newReqs + [Encoded((context, continuation), contextEnc, continuationEnc)];
      i := i + 1;
    }
  }
}

=== FILE: wrappers.dfy ===
/** The optional value used for Python's `None`-or-value slots and stored entries. */
module Wrappers {
  datatype Option<+T> = None | Some(value: T)
}

=== FILE: writes.dfy ===
/**
 * A run of dictionary assignments `d[k] = v`, applied left to right, as the
 * cache's store receives them.
 */
module Writes {
  import opened Fingerprint

  /** Some assignment in `ws` targets `k`. */
  predicate Written<W>(ws: seq<(Key, W)>, k: Key) {
    exists j :: 0 <= j < |ws| && ws[j].0 == k
  }

  function ApplyWrites<W>(m: map<Key, W>, ws: seq<(Key, W)>): (r: map<Key, W>)
    ensures forall k :: k in r <==> k in m || Written(ws, k)
    decreases |ws|
  {
    if ws == [] then m
    else
      var r := ApplyWrites(m, ws[..|ws| - 1]);
      assert forall j :: 0 <= j < |ws| - 1 ==> ws[..|ws| - 1][j] == ws[j];
      r[ws[|ws| - 1].0 := ws[|ws| - 1].1]
  }

  /** Applying one more assignment of a run. */
  lemma ApplyWritesStep<W>(m: map<Key, W>, ws: seq<(Key, W)>, k: nat)
    requires k < |ws|
    ensures ApplyWrites(m, ws[..k + 1]) == ApplyWrites(m, ws[..k])[ws[k].0 := ws[k].1]
  {
    assert ws[..k + 1][..k] == ws[..k];
  }

  /** The last assignment to a key decides its value. */
  lemma {:induction false} LastWriteWins<W>(m: map<Key, W>, ws: seq<(Key, W)>, j: nat)
    requires j < |ws|
    requires forall j' :: j < j' < |ws| ==> ws[j'].0 != ws[j].0
    ensures ApplyWrites(m, ws)[ws[j].0] == ws[j].1
    decreases |ws|
  {
    if j < |ws| - 1 {
      var init := ws[..|ws| - 1];
      assert init[j] == ws[j];
      LastWriteWins(m, init, j);
    }
  }

  /** A key no assignment targets keeps its presence and its value. */
  lemma {:induction false} Untouched<W>(m: map<Key, W>, ws: seq<(Key, W)>, k: Key)
    requires !Written(ws, k)
    ensures k in ApplyWrites(m, ws) <==> k in m
    ensures k in m ==> ApplyWrites(m, ws)[k] == m[k]
    decreases |ws|
  {
    if ws != [] {
      var init := ws[..|ws| - 1];
      assert forall j :: 0 <= j < |init| ==> init[j] == ws[j];
      Untouched(m, init, k);
    }
  }

  /** A key that every assignment to it sets to `v` ends up holding `v`. */
  lemma {:induction false} AgreeingWrites<W>(m: map<Key, W>, ws: seq<(Key, W)>, k: Key, v: W)
    requires Written(ws, k)
    requires forall j :: 0 <= j < |ws| && ws[j].0 == k ==> ws[j].1 == v
    ensures ApplyWrites(m, ws)[k] == v
    decreases |ws|
  {
    var init := ws[..|ws| - 1];
    if ws[|ws| - 1].0 != k {
      var j :| 0 <= j < |ws| && ws[j].0 == k;
      assert j < |ws| - 1 && init[j] == ws[j];
      forall j' | 0 <= j' < |init| && init[j'].0 == k ensures init[j'].1 == v {
        assert init[j'] == ws[j'];
      }
      AgreeingWrites(m, init, k, v);
    }
  }
}
